=== FILE: README.md ===
# tera-download-bot, modelled in Dafny

The system is a Telegram bot that downloads TeraBox links for a small set of
users. It has two halves:

- **The bot** (`bot/bot.py`, and its earlier copy `bot.py`):
  - It keeps a table of authorized users keyed by the decimal user id.
  - The admin grants access with `/grantaccess <id>`.
  - `/start` answers with one of three greetings.
  - A text message that names a TeraBox domain and comes from the admin or an authorized user is put on `download_queue`.
  - A single worker task takes the jobs off that queue in order. For each job it replies with a "Processing" status message, then asks the backend to download the link, fetches the file, sends it as a document, and deletes the local copy and the status message.
  - If one of those steps raises, the worker edits the status message to the error instead. In `bot/bot.py` the job is then marked done with `task_done` (it sits in `finally`), even when that error edit raises too and the worker ends. In `bot.py` `task_done` follows the try/except, so a raising error edit ends the worker without marking the job done.
  - The "Processing" reply is outside the try. If it raises, no step is attempted, no error edit is made, `task_done` is not called, and the worker ends.
- **The backend** (`backend/backend.py`, and the earlier `backend.py`): a FastAPI service that runs `yt-dlp` with a cookie file.
  - `backend.py` draws cookies from one shuffled pool. Each cookie rests 90 seconds after use.
  - `backend/backend.py` normalises the URL, refuses mobile and folder links, and picks the cookie file by domain. It also serves the produced file under `GET /file/{name}`.

The Dafny modules follow that split:

| file | module | models |
|---|---|---|
| `optional.dfy` | `Optional` | Python's `None`-or-value |
| `text.dfy` | `Text` | the Python `str` operations used: `in`, `replace`, `strip`, `str(int)` |
| `http.dfy` | `Http` | JSON replies, `HTTPException` bodies, the directory listing and the newest-file choice |
| `cookie_pool.dfy` | `CookiePool` | `backend.py`: the pool as a class with the in-place shuffle and the cooldown map, and the status chain of `download` |
| `backend.dfy` | `Backend` | `backend/backend.py`: `normalize`, `is_blocked`, `cookie_for`, `download`, `file` |
| `access.dfy` | `Access` | the pure admission logic shared by both bots |
| `bot.dfy` | `Bot` | the bot's state as a class (user table, queue, unfinished count, worker trace) and the worker loop of both versions |

How the model stands in for things it cannot see:

- **Calls the worker makes** (Telegram replies and edits, HTTP requests, unlink) are recorded in a trace. Whether each call returns or raises comes from a per-job `JobOutcome`, and so does the backend's answer.
- **The worker versions.** `Variant.Current` is `bot/bot.py`, where `task_done` is in `finally`. `Variant.Legacy` is `bot.py`, where `task_done` follows the try/except.
- **The clock** is an integer parameter.
- **`random.shuffle`** is Python's Fisher-Yates loop. The values `randbelow` returned are passed in as `draws`.
- **The tool and the filesystem** enter as inputs:
  - the tool is reduced to its exit code;
  - the cookie files that exist are a set of paths;
  - the download directory is a listing of (name, mtime, size).

## Model

| member | source | states |
|---|---|---|
| CookiePool.LastUsed | backend.py:24 | a cookie's last use is its stamp, or time 0 for a cookie never handed out |
| CookiePool.Ready | backend.py:24-25 | a cookie may be handed out when strictly more than 90 seconds have passed since its last use |
| CookiePool.Shuffled | backend.py:21 | Python's shuffle: for `i` from the top index down to 1, exchange `x[i]` with `x[j]`, where `j` is the draw `randbelow(i + 1)` gave |
| CookiePool.FirstReady | backend.py:23-28 | the scan stops at the first cookie whose last use (0 if never) is more than 90 seconds before `now`, or past the end when none is |
| CookiePool.ShuffledPermutes | backend.py:21 | Python's shuffle, for any draws, keeps the same cookies with the same multiplicities |
| CookiePool.Pool.constructor | backend.py:13-14 | the pool starts as the listed cookie files and the cooldown map starts empty |
| CookiePool.Pool.Shuffle | backend.py:21 | the in-place loop leaves exactly the Fisher-Yates result of the draws, a permutation of the old pool |
| CookiePool.Pool.GetCookie | backend.py:19-28 | returns the first ready cookie of the shuffled pool and stamps only that cookie with `now`; returns None exactly when no cookie is ready, and then leaves the map unchanged |
| CookiePool.StampedNotReady | backend.py:24-26 | a cookie stamped at `t` is not handed out again at any time up to `t + 90` |
| CookiePool.SingleCookieScenario | backend.py:19-28 | one cookie is handed out at 1000, refused at 1030 and at 1090, and handed out again at 1095 |
| CookiePool.Decide | backend.py:30-62 | 429 exactly without a cookie, 500 exactly on a nonzero exit, 404 exactly on an empty directory, otherwise 200 with the newest file under "file" |
| CookiePool.NoCookieIgnoresTool | backend.py:32-34 | without a cookie the answer is 429 whatever the tool and the directory would have done |
| CookiePool.Pool.Download | backend.py:19-62 | the pool is left in the shuffled order, the answer is the status chain applied to the first ready cookie of that order, exactly that cookie is stamped with `now`, and the answer is 429 with the map unchanged exactly when no cookie is ready |
| Http.Error | backend/backend.py:63-68 | an `HTTPException(status, detail)` answers with that status and a body holding only "detail" |
| Http.Newest | backend/backend.py:66-70 | the chosen file has the greatest mtime, and every file listed before it has a smaller one |
| Text.Contains | backend/backend.py:27 | Python's `p in s`: `p` is a prefix of `s` or of some suffix of it |
| Text.Replace | backend/backend.py:21-23 | Python's `replace`: every non-overlapping occurrence, scanned left to right, is replaced, and the inserted text is not scanned again |
| Text.IsSpace | backend/backend.py:20 | the characters Python's `isspace` accepts |
| Text.Strip | backend/backend.py:20 | Python's `strip()`: whitespace is removed from the left end, then from the right end |
| Text.IntToString | bot/bot.py:54 | Python's `str(n)`: decimal digits without leading zeros, with a leading "-" for a negative id |
| Text.ContainsIff | backend/backend.py:27 | Python's substring test holds exactly when the piece occurs at some index |
| Text.StripTrimmed | backend/backend.py:20 | `strip` leaves a string that has no whitespace at either end unchanged |
| Text.StripKeeps | backend/backend.py:20 | `strip` keeps any piece that neither begins nor ends with whitespace |
| Text.ReplaceAbsent | backend/backend.py:21-23 | `replace` leaves a string without the pattern unchanged |
| Text.ReplaceIntroduces | backend/backend.py:22-23 | after replacing a pattern that occurs, the replacement occurs |
| Text.ReplaceKeeps | backend/backend.py:21-23 | replacing a pattern that cannot overlap a piece keeps that piece |
| Backend.Normalize | backend/backend.py:19-24 | the URL is stripped, then every "www." removed, then "teraboxurl.com" and afterwards "terabox.app" rewritten to "1024terabox.com" |
| Backend.IsBlocked | backend/backend.py:26-27 | a link is blocked exactly when "/wap/" or "filelist" occurs in it at some index |
| Backend.NormalizeKeeps | backend/backend.py:19-24 | a trimmed URL without "www.", "teraboxurl.com" or "terabox.app" normalises to itself |
| Backend.NormalizeRoutesAliases | backend/backend.py:19-34 | a URL naming either alias host normalises to one naming "1024terabox.com", which routes to `cookies_1024.txt` |
| Backend.CookieFor | backend/backend.py:29-34 | the mirror cookie exactly when "1024terabox.com" occurs, the terasharefile cookie exactly when only "terasharefile.com" occurs, otherwise none |
| Backend.Download | backend/backend.py:36-73 | 400 exactly when the normalised link is blocked or has no cookie (or no cookie file), with the blocked message first; past both guards, 500 exactly on a nonzero exit, 404 exactly on an empty directory, and 200 exactly otherwise, with the newest file under "filename" |
| Backend.BlockedBeforeCookie | backend/backend.py:38-45 | a link that is mobile or a folder after normalising gets the same 400 refusal whatever cookie files exist and whatever the tool and the directory would have done |
| Backend.ServeFile | backend/backend.py:75-80 | 404 exactly when `downloads/name` does not exist, otherwise that file under the given name |
| Backend.DownloadThenServe | backend/backend.py:66-80 | the name a successful download reports, handed unchanged to `GET /file`, is served from the download directory |
| Text.IntToStringInjective | bot/bot.py:53-54 | distinct user ids have distinct decimal keys |
| Access.LoadDb | bot/bot.py:42-45 | the stored table when the file exists; without a file nobody is authorized |
| Access.IsAdmin | bot/bot.py:50-51 | the admin is the one user whose id equals `ADMIN_ID` |
| Access.IsAuthorized | bot/bot.py:53-54 | a user is authorized when the decimal rendering of their id is a key of the table |
| Access.Grant | bot/bot.py:145-148 | a grant adds exactly the given key, with an empty record, and keeps every other entry |
| Access.MentionsAny | bot/bot.py:156 | the `any(...)` test holds exactly when some domain of the list occurs in the text |
| Access.MessageText | bot/bot.py:154 | a message without text is treated as the empty string |
| Access.Admits | bot/bot.py:154-165 | a message is queued exactly when its text contains "terabox" or "terasharefile" and its sender is the admin or has a key in the table |
| Access.GrantAuthorizesExactly | bot/bot.py:145-148 | granting `str(v)` authorizes user `v` and nobody else new |
| Access.MentionsTeraboxReduces | bot/bot.py:34-38 | the domain test holds exactly when the text contains "terabox" or "terasharefile" |
| Access.Start | bot/bot.py:126-140 | admin greeting exactly for the admin, even one in the table; the user greeting exactly for authorized non-admins; denial otherwise |
| Access.StartAgreesWithAdmission | bot/bot.py:126-165 | for a text naming a domain, a sender is admitted exactly when `/start` does not deny them |
| Access.GrantThenStart | bot/bot.py:136-148 | after the admin grants `str(v)`, user `v` is not denied |
| Bot.Bot.constructor | bot/bot.py:31-170 | the bot starts with the loaded table (lines 42-45), an empty queue, nothing unfinished and a running worker, which `post_init` starts (lines 169-170) |
| Bot.Bot.GrantAccess | bot/bot.py:142-149 | a non-admin or a missing argument changes nothing; otherwise the table gets the grant |
| Bot.Bot.HandleMessage | bot/bot.py:153-165 | the job is appended exactly when the text names a domain and the sender is the admin or authorized; otherwise the queue is unchanged |
| Bot.JobTurn | bot/bot.py:89-122 | in this version and in bot.py:87-113, a turn that lets the worker go on has reached `task_done`; `task_done` is reached exactly when the reply worked and either the version is bot/bot.py or the worker goes on |
| Bot.TryBlock | bot/bot.py:95-116 | the POST comes first and at most the six success calls are made; nothing is raised only when the answer was 200 and every later call returned; an unreachable backend is reported as such |
| Bot.TryStopsAtBadName | bot/bot.py:96-104 | a 200 answer whose "filename" is not a string gets the POST and the progress edit only; the failure is the progress edit's when it raised, the bad name's otherwise |
| Bot.TryStopsAtAnswer | bot/bot.py:96-98 | without a 200 answer carrying "filename" and "size_mb" only the POST is made, and the failure names the unreachable backend, the refusal, or the missing key |
| Bot.TryIsPrefix | bot/bot.py:95-113 | against a usable answer the try block makes the success calls in order; it stops after 2, 3, 4, 5 or 6 calls at the progress edit, fetch, send, unlink or delete that raised, reports that failure, and raises nothing exactly when every call returned |
| Bot.ReplyFailedEndsWorker | bot/bot.py:92-93 | a "Processing" reply that raises makes no other call and no error edit, does not reach `task_done`, and ends the worker |
| Bot.CleanTryGoesOn | bot/bot.py:95-119 | a try block that raised nothing, whatever else the 200 body held, reaches `task_done` and the worker goes on, in both versions |
| Bot.SuccessPath | bot.py:92-113 | when every call returns, the calls are: reply, POST, progress edit, fetch, send, unlink, delete; then `task_done` |
| Bot.FailurePath | bot/bot.py:95-119 | after a failure only the error edit follows; the status message is deleted only when its deletion raised; the worker goes on exactly when the error edit returns |
| Bot.UnlinkAfterSend | bot/bot.py:104-112 | the local copy is unlinked only right after sending that same file returned |
| Bot.TurnActions | bot/bot.py:92-119 | one loop pass records the `get` of the job, the calls its turn made, and then `task_done` for that job only when the turn reached it |
| Bot.Turns | bot/bot.py:91-119 | each queued job, in queue order, gets the turn its own outcome decides |
| Bot.DrainFrom | bot/bot.py:89-122 | the worker takes jobs from the k-th on until the queue is empty or a turn ends it; it never takes more jobs than are queued, a worker still running has taken them all, and an ended worker's last job is the one whose turn did not go on |
| Bot.TurnTaskDones | bot/bot.py:118-119 | a turn's trace holds one `task_done`, for its own job, when it was reached, and none otherwise |
| Bot.DequeuesInOrder | bot/bot.py:91-92 | the worker takes the jobs in queue order, one per turn |
| Bot.TaskDonesWhenAlive | bot/bot.py:118-119 | a worker still running has marked every job it took done, in queue order |
| Bot.TaskDonesWhenEnded | bot.py:88-113 | a worker that ended has marked done every job before the last; the last only if its turn reached `task_done` |
| Bot.WorkerInOrder | bot/bot.py:89-122 | FIFO, and each job is marked done once in order; the job the worker dies on is marked in bot/bot.py unless its reply failed, and never in bot.py |
| Bot.Bot.Process | bot/bot.py:92-119 | on a running worker, one loop pass dequeues the head, appends exactly that job's turn to the trace, and decrements the unfinished count when `task_done` is reached |
| Bot.Bot.Step | bot/bot.py:91-119 | one loop pass keeps the worker invariant: the trace so far plus the run from the next job is the whole run |
| Bot.Bot.RunWorker | bot/bot.py:89-122 | the worker's trace, remaining queue, liveness and unfinished count are those of the run over the queued jobs |
| Bot.PoolReplyAlwaysFails | bot.py:92-111 | against `backend.py`'s answers every job fails right after the POST, with a KeyError on "filename" when the answer is 200 |
| Bot.BackendReplyDelivers | bot/bot.py:95-113 | against `backend/backend.py`'s 200 answer a job whose calls return goes through the whole success path |

## Left out

- Telegram and aiohttp I/O. Each call is one trace entry, and whether it returns comes from `JobOutcome`. Message texts, captions, timeouts and retries are not modelled.
- The chunked read loop of `fetch_file` / `fetch_file_from_backend`. Fetching is one call that returns or raises.
- `yt-dlp` and its argument list. Only the exit code enters the model.
- The filesystem:
  - `glob`, `getmtime`, `exists`, `mkdir` and `unlink` are inputs (listing, set of existing paths) or trace entries;
  - reading and writing `users.json` is the `db` field;
  - the disk writes of `save_db` are not modelled.
- URL quoting. The bot puts the file name unquoted into `/file/{filename}`, so a name holding `#`, `?` or a `%xx` sequence may not reach `GET /file` unchanged. The round trip `Backend.DownloadThenServe` shows is between the backend's two handlers, with the name passed on as it is.
- A malformed user table. `load_db` raises when `users.json` is not valid JSON, and `is_authorized` raises when the table has no "authorized_users" key. `Access.LoadDb` takes a stored table to be well formed.
- Path joining. `GET /file/{name}` serves the path `"downloads/" + name`, so names with `..` or absolute paths are not resolved.
- Concurrency:
  - the `asyncio` scheduling of handlers and worker;
  - task creation and cancellation, including the `CancelledError` handler;
  - FastAPI's thread pool, under which two `get_cookie` calls could interleave.

  Calls are taken one at a time.
- Bot.Bot.RunWorker: stops when the queue is empty, where the source's `get` waits for the next job. Running it again after more `HandleMessage` calls continues the same loop.
- CookiePool.Pool.GetCookie: `time.time()` is a float; the model's clock is an integer number of seconds.
- File times: `os.path.getmtime` returns a float, while `FileEntry.mtime` is an integer. Only the order of the mtimes matters to the choice of the newest file.
- CookiePool.Decide: `size_mb` is `Json.SizeMb(bytes)`, the byte count the rounded float is computed from, not the float itself.
- Backend.Download: `size_mb` is represented in the same way.
- `backend.py` has no `GET /file` route. Fetching from that backend is covered only by the trace outcome `fetchOk`.
- Telegram details such as `update.effective_user` and message objects. An update is an opaque number, and the sender id is passed in.

## Findings

| source | as written | input that shows it | evidently intended | confidence | as-written member | corrected member |
|---|---|---|---|---|---|---|
| backend.py:59-62 | a successful download answers `{"file": ..., "size_mb": ...}`, while both bots read `result["filename"]` (bot.py:94, bot/bot.py:97) | any job answered 200 by `backend.py`: the worker raises KeyError('filename'), edits the status to the error and sends nothing | answer under "filename", as `backend/backend.py` does | high that the keys differ; medium that `backend.py` was meant to serve the bot (not executed) | Bot.PoolReplyAlwaysFails | Bot.BackendReplyDelivers |

=== FILE: access.dfy ===
/**
 * Who may use the bot (bot.py and bot/bot.py share this logic): the admin
 * chat id, the table of authorized users keyed by `str(user id)`, the link
 * test that makes a message a download request, and the /start greeting.
 */
module Access {
  import opened Optional
  import opened Text

  /** The `{}` that grant_access stores for a user. */
  datatype UserRecord = UserRecord

  /** The user database: `db["authorized_users"]`, keyed by the decimal user id. */
  datatype Db = Db(authorizedUsers: map<string, UserRecord>)

  /** `load_db()`: the stored database, or an empty table when there is no file yet. */
  function LoadDb(stored: Option<Db>): (db: Db)
    ensures stored.Some? ==> db == stored.value
    ensures stored.None? ==> forall uid :: !IsAuthorized(uid, db)
  {
    if stored.Some? then stored.value else Db(map[])
  }

  predicate IsAdmin(uid: int, admin: int)
  {
    uid == admin
  }

  /** `is_authorized`: the user's id, rendered as by `str`, is a key of the table. */
  predicate IsAuthorized(uid: int, db: Db)
  {
    IntToString(uid) in db.authorizedUsers
  }

  /**
   * `db["authorized_users"][arg] = {}`: a grant adds exactly the key it names,
   * with an empty record, and keeps every other entry.
   */
  function Grant(db: Db, arg: string): (g: Db)
    ensures g.authorizedUsers.Keys == db.authorizedUsers.Keys + {arg}
    ensures g.authorizedUsers[arg] == UserRecord
    ensures forall k :: k in db.authorizedUsers && k != arg ==> g.authorizedUsers[k] == db.authorizedUsers[k]
  {
    Db(db.authorizedUsers[arg := UserRecord])
  }

  /** Granting `str(v)` authorizes user `v` and nobody else who was not authorized before. */
  lemma GrantAuthorizesExactly(db: Db, v: int, uid: int)
    ensures IsAuthorized(uid, Grant(db, IntToString(v))) <==> IsAuthorized(uid, db) || uid == v
  {
    if IntToString(uid) == IntToString(v) {
      IntToStringInjective(uid, v);
    }
  }

  /** `TERABOX_DOMAINS`. */
  const TeraboxDomains: seq<string> := ["terabox", "1024terabox", "terasharefile"]

  /** Python's `any(d in text for d in domains)`: some domain of the list occurs in the text. */
  function MentionsAny(text: string, domains: seq<string>): (b: bool)
    ensures b <==> exists i :: 0 <= i < |domains| && Contains(text, domains[i])
    decreases |domains|
  {
    if |domains| == 0 then false
    else if Contains(text, domains[0]) then true
    else
      var rest := domains[1..];
      assert forall i :: 0 < i < |domains| ==> domains[i] == rest[i - 1];
      MentionsAny(text, rest)
  }

  /** The domain test of handle_message only needs "terabox" and "terasharefile". */
  lemma MentionsTeraboxReduces(text: string)
    ensures MentionsAny(text, TeraboxDomains) <==> Contains(text, "terabox") || Contains(text, "terasharefile")
  {
    assert TeraboxDomains[1..] == ["1024terabox", "terasharefile"];
    assert TeraboxDomains[1..][1..] == ["terasharefile"];
    if Contains(text, "1024terabox") {
      assert "1024terabox"[4..4 + |"terabox"|] == "terabox";
      ContainsFromOccurrence("1024terabox", "terabox", 4);
      ContainsTransitive(text, "1024terabox", "terabox");
    }
  }

  /** `update.message.text or ""`. */
  function MessageText(text: Option<string>): string
  {
    if text.Some? then text.value else ""
  }

  /** handle_message's test: the text names a known domain and the sender is the admin or authorized. */
  function Admits(uid: int, admin: int, db: Db, text: string): (b: bool)
    ensures b <==> (Contains(text, "terabox") || Contains(text, "terasharefile"))
                   && (uid == admin || IntToString(uid) in db.authorizedUsers)
  {
    MentionsTeraboxReduces(text);
    MentionsAny(text, TeraboxDomains) && (IsAdmin(uid, admin) || IsAuthorized(uid, db))
  }

  /** The three replies of /start. */
  datatype Greeting = AdminReady | SendLink | AccessDenied

  /** `start`: the admin check comes first, then the table. */
  function Start(uid: int, admin: int, db: Db): (g: Greeting)
    ensures g == AdminReady <==> IsAdmin(uid, admin)
    ensures g == SendLink <==> !IsAdmin(uid, admin) && IsAuthorized(uid, db)
    ensures g == AccessDenied <==> !IsAdmin(uid, admin) && !IsAuthorized(uid, db)
  {
    if uid == admin then AdminReady
    else if IsAuthorized(uid, db) then SendLink
    else AccessDenied
  }

  /** Whoever /start greets may submit links: the greeting and the admission test agree. */
  lemma StartAgreesWithAdmission(uid: int, admin: int, db: Db, text: string)
    requires MentionsAny(text, TeraboxDomains)
    ensures Admits(uid, admin, db, text) <==> Start(uid, admin, db) != AccessDenied
  {
  }

  /** After the admin grants `str(v)`, user `v` is greeted and admitted. */
  lemma GrantThenStart(db: Db, v: int, admin: int)
    ensures Start(v, admin, Grant(db, IntToString(v))) != AccessDenied
  {
    GrantAuthorizesExactly(db, v, v);
  }
}

=== FILE: backend.dfy ===
/**
 * The domain-routed backend (backend/backend.py): URLs are normalised,
 * mobile and folder links refused, the cookie file chosen by domain, and the
 * tool's outcome mapped to an HTTP answer; GET /file serves the result.
 */
module Backend {
  import opened Optional
  import opened Text
  import opened Http

  const Mirror := "1024terabox.com"
  const CookieMirror := "cookies/cookies_1024.txt"
  const CookieShare := "cookies/cookies_terasharefile.txt"

  /** `normalize`: strip, drop "www.", and rewrite the two alias hosts to the mirror host. */
  function Normalize(url: string): string
  {
    var stripped := Strip(url);
    var bare := Replace(stripped, "www.", "");
    var aliased := Replace(bare, "teraboxurl.com", Mirror);
    Replace(aliased, "terabox.app", Mirror)
  }

  /** `is_blocked`: mobile ("/wap/") and folder ("filelist") links are refused. */
  function IsBlocked(url: string): (b: bool)
    ensures b <==> (exists i :: OccursAt(url, "/wap/", i)) || (exists i :: OccursAt(url, "filelist", i))
  {
    ContainsIff(url, "/wap/");
    ContainsIff(url, "filelist");
    Contains(url, "/wap/") || Contains(url, "filelist")
  }

  /** `cookie_for`: the mirror host wins over terasharefile.com; other hosts get no cookie. */
  function CookieFor(url: string): (r: Option<string>)
    ensures r == Some(CookieMirror) <==> Contains(url, Mirror)
    ensures r == Some(CookieShare) <==> !Contains(url, Mirror) && Contains(url, "terasharefile.com")
    ensures r == None <==> !Contains(url, Mirror) && !Contains(url, "terasharefile.com")
  {
    if Contains(url, Mirror) then Some(CookieMirror)
    else if Contains(url, "terasharefile.com") then Some(CookieShare)
    else None
  }

  /** A URL that is already trimmed and mentions none of the rewritten pieces is left alone. */
  lemma NormalizeKeeps(url: string)
    requires |url| > 0 ==> !IsSpace(url[0]) && !IsSpace(url[|url| - 1])
    requires !Contains(url, "www.") && !Contains(url, "teraboxurl.com") && !Contains(url, "terabox.app")
    ensures Normalize(url) == url
  {
    StripTrimmed(url);
    ReplaceAbsent(url, "www.", "");
    ReplaceAbsent(url, "teraboxurl.com", Mirror);
    ReplaceAbsent(url, "terabox.app", Mirror);
  }

  /** Every alias host normalises to the mirror host, which routes to the mirror's cookie. */
  lemma {:induction false} NormalizeRoutesAliases(url: string)
    requires Contains(url, "teraboxurl.com") || Contains(url, "terabox.app")
    ensures Contains(Normalize(url), Mirror)
    ensures CookieFor(Normalize(url)) == Some(CookieMirror)
  {
    var stripped := Strip(url);
    var bare := Replace(stripped, "www.", "");
    var aliased := Replace(bare, "teraboxurl.com", Mirror);
    // neither alias begins or ends with whitespace, and "www." cannot overlap either
    assert "teraboxurl.com"[1..] == "eraboxurl.com" && "terabox.app"[1..] == "erabox.app";
    assert "www."[1..] == "ww.";
    assert Disjoint("www.", "teraboxurl.com") by { assert "www."[0] != "teraboxurl.com"[0]; }
    assert Disjoint("www.", "terabox.app") by { assert "www."[0] != "terabox.app"[0]; }
    if Contains(url, "teraboxurl.com") {
      StripKeeps(url, "teraboxurl.com");
      ReplaceKeeps(stripped, "teraboxurl.com", "www.", "");
    }
    if Contains(url, "terabox.app") {
      StripKeeps(url, "terabox.app");
      ReplaceKeeps(stripped, "terabox.app", "www.", "");
    }
    // after the first rewrite the string holds the mirror host or still holds "terabox.app"
    if Contains(bare, "teraboxurl.com") {
      ReplaceIntroduces(bare, "teraboxurl.com", Mirror);
    } else {
      ReplaceAbsent(bare, "teraboxurl.com", Mirror);
    }
    assert Contains(aliased, Mirror) || Contains(aliased, "terabox.app");
    // the second rewrite either introduces the mirror host or changes nothing
    if Contains(aliased, "terabox.app") {
      ReplaceIntroduces(aliased, "terabox.app", Mirror);
    } else {
      ReplaceAbsent(aliased, "terabox.app", Mirror);
    }
  }

  /**
   * POST /download with the normalised URL: blocked links 400, no cookie (or
   * no cookie file among `existing`) 400, a nonzero tool exit 500, an empty
   * download directory 404, otherwise the newest file under "filename".
   */
  function Download(url: string, existing: set<string>, exitCode: int, listing: seq<FileEntry>)
    : (r: Response)
    ensures IsBlocked(Normalize(url)) ==> r == Error(400, "Mobile/WAP links are not supported")
    ensures !IsBlocked(Normalize(url)) && (CookieFor(Normalize(url)).None? || CookieFor(Normalize(url)).value !in existing)
      ==> r == Error(400, "No cookie for this link")
    ensures r.status == 500 <==> r == Error(500, "Download failed")
    ensures r.status == 500 || r.status == 404 || r.status == 200
      ==> !IsBlocked(Normalize(url)) && CookieFor(Normalize(url)).Some? && CookieFor(Normalize(url)).value in existing
    ensures r.status == 400 <==>
      IsBlocked(Normalize(url)) || CookieFor(Normalize(url)).None? || CookieFor(Normalize(url)).value !in existing
    ensures r.status == 500 <==> r.status != 400 && exitCode != 0
    ensures r.status == 404 <==> r.status != 400 && exitCode == 0 && |listing| == 0
    ensures r.status == 200 <==>
      && !IsBlocked(Normalize(url)) && CookieFor(Normalize(url)).Some? && CookieFor(Normalize(url)).value in existing
      && exitCode == 0 && |listing| > 0
    ensures r.status == 200 ==>
      && exitCode == 0
      && r.body.Keys == {"filename", "size_mb"}
      && exists i :: 0 <= i < |listing| && r.body["filename"] == Str(listing[i].name)
                     && r.body["size_mb"] == SizeMb(listing[i].size)
                     && forall j :: 0 <= j < |listing| ==> listing[j].mtime <= listing[i].mtime
    ensures r.status in {200, 400, 404, 500}
  {
    var u := Normalize(url);
    if IsBlocked(u) then Error(400, "Mobile/WAP links are not supported")
    else
      var cookie := CookieFor(u);
      if cookie.None? || cookie.value !in existing then Error(400, "No cookie for this link")
      else if exitCode != 0 then Error(500, "Download failed")
      else if |listing| == 0 then Error(404, "No file created")
      else
        var f := listing[Newest(listing)];
        Response(200, map["filename" := Str(f.name), "size_mb" := SizeMb(f.size)])
  }

  /** What GET /file answers: the file at a path, or a JSON error. */
  datatype FileReply = FileBody(path: string, filename: string) | Missing(reply: Response)

  /** GET /file/{name}: `downloads/name` when it exists, 404 otherwise; the name is not checked. */
  function ServeFile(name: string, existing: set<string>): (r: FileReply)
    ensures r.Missing? <==> "downloads/" + name !in existing
    ensures r.Missing? ==> r.reply == Error(404, "Not Found")
    ensures r.FileBody? ==> r.path == "downloads/" + name && r.path in existing && r.filename == name
  {
    var p := "downloads/" + name;
    if p !in existing then Missing(Error(404, "Not Found")) else FileBody(p, name)
  }

  /**
   * The two requests of one transfer fit together: the name a successful
   * POST /download reports is served by GET /file, provided the listing it
   * was chosen from is what lies in the download directory.
   */
  lemma DownloadThenServe(url: string, existing: set<string>, exitCode: int, listing: seq<FileEntry>)
    requires forall i :: 0 <= i < |listing| ==> "downloads/" + listing[i].name in existing
    requires Download(url, existing, exitCode, listing).status == 200
    ensures var r := Download(url, existing, exitCode, listing);
      r.body["filename"].Str? &&
      ServeFile(r.body["filename"].text, existing) ==
        FileBody("downloads/" + r.body["filename"].text, r.body["filename"].text)
  {
  }

  /**
   * A blocked link ("/wap/" or "filelist" after normalising) gets the same
   * refusal whatever cookie files exist and whatever the tool and the
   * directory would have done.
   */
  lemma BlockedBeforeCookie(url: string, existing: set<string>, exitCode: int, listing: seq<FileEntry>,
                            existing': set<string>, exitCode': int, listing': seq<FileEntry>)
    requires IsBlocked(Normalize(url))
    ensures Download(url, existing, exitCode, listing) == Download(url, existing', exitCode', listing')
    ensures Download(url, existing, exitCode, listing) == Error(400, "Mobile/WAP links are not supported")
  {
  }
}

=== FILE: bot.dfy ===
/**
 * The chat side of the bot (bot/bot.py, and its earlier copy bot.py): the
 * grant command, the message handler that fills `download_queue`, and the
 * single worker that empties it in order. Telegram and HTTP calls are recorded
 * as actions; whether each one returns or raises is given by an outcome per job.
 */
module Bot {
  import opened Optional
  import opened Http
  import opened Access
  import Backend
  import CookiePool

  /** An item of `download_queue`: the Telegram update (an opaque handle) and the message text. */
  datatype Job = Job(update: nat, text: string)

  /** Current: bot/bot.py, `task_done` in `finally`. Legacy: bot.py, `task_done` after the try/except. */
  datatype Variant = Current | Legacy

  /** What the try block raised, as the error edit reports it. */
  datatype Reason =
    | Unreachable                                      // the POST itself raised
    | Refused(status: int, body: map<string, Json>)    // a non-200 answer: Exception(resp.text())
    | MissingKey(key: string)                          // KeyError on result[...]
    | ProgressEditFailed
    | NotAName                                         // DOWNLOAD_DIR / filename on a non-string
    | FetchFailed
    | SendFailed
    | UnlinkFailed
    | DeleteFailed

  /** The outside calls the worker makes for one job. */
  datatype Call =
    | ReplyProcessing                  // reply_text("Processing download")
    | RequestDownload(url: string)     // POST {BACKEND_URL}/download
    | EditProgress(size: Json)         // edit_text with the size in MB
    | FetchFile(name: string)          // GET {BACKEND_URL}/file/{name} into downloads/name
    | SendDocument(name: string)       // reply_document
    | UnlinkLocal(name: string)        // unlink(missing_ok=True)
    | DeleteStatus                     // msg.delete()
    | EditFailure(reason: Reason)      // edit_text("Failed: ...")

  /**
   * The worker's trace: the queue operations, and between them the outside
   * calls made while handling each job, in the order they were made.
   */
  datatype Action =
    | Dequeued(job: Job)               // download_queue.get()
    | Handled(calls: seq<Call>)
    | TaskDone(job: Job)               // download_queue.task_done()

  /** Whether each outside call of one job returns (true) or raises (false), and what the backend answered. */
  datatype JobOutcome = JobOutcome(
    replyOk: bool,
    answer: Option<Response>,
    progressEditOk: bool,
    fetchOk: bool,
    sendOk: bool,
    unlinkOk: bool,
    deleteOk: bool,
    failureEditOk: bool)

  /** The calls made inside `try:` and what it raised, if anything. */
  datatype Attempt = Attempt(calls: seq<Call>, failure: Option<Reason>)

  /**
   * The try block of the worker for one URL: the POST always comes first, at
   * most the six success calls are made, and nothing is raised only when the
   * backend answered 200 and every later call returned.
   */
  function TryBlock(url: string, o: JobOutcome): (a: Attempt)
    ensures 1 <= |a.calls| <= 6 && a.calls[0] == RequestDownload(url)
    ensures a.failure.None? ==>
      && o.answer.Some? && o.answer.value.status == 200
      && o.progressEditOk && o.fetchOk && o.sendOk && o.unlinkOk && o.deleteOk
      && |a.calls| == 6 && a.calls[5] == DeleteStatus
    ensures a.failure == Some(Unreachable) <==> o.answer.None?
  {
    var request := [RequestDownload(url)];
    if o.answer.None? then Attempt(request, Some(Unreachable))
    else if o.answer.value.status != 200 then
      Attempt(request, Some(Refused(o.answer.value.status, o.answer.value.body)))
    else
      var result := o.answer.value.body;
      if "filename" !in result then Attempt(request, Some(MissingKey("filename")))
      else if "size_mb" !in result then Attempt(request, Some(MissingKey("size_mb")))
      else
        var progress := request + [EditProgress(result["size_mb"])];
        if !o.progressEditOk then Attempt(progress, Some(ProgressEditFailed))
        else if !result["filename"].Str? then Attempt(progress, Some(NotAName))
        else
          var name := result["filename"].text;
          var fetch := progress + [FetchFile(name)];
          if !o.fetchOk then Attempt(fetch, Some(FetchFailed))
          else
            var send := fetch + [SendDocument(name)];
            if !o.sendOk then Attempt(send, Some(SendFailed))
            else
              var unlink := send + [UnlinkLocal(name)];
              if !o.unlinkOk then Attempt(unlink, Some(UnlinkFailed))
              else
                var delete := unlink + [DeleteStatus];
                if !o.deleteOk then Attempt(delete, Some(DeleteFailed)) else Attempt(delete, None)
  }

  /** One turn of the worker loop: its calls, whether it reached `task_done`, whether the worker goes on. */
  datatype Turn = Turn(calls: seq<Call>, taskDone: bool, survives: bool)

  /**
   * One dequeued job. A failed "Processing" reply is outside the try and ends
   * the worker. An exception from the error edit ends it too; bot/bot.py still
   * calls `task_done` on the way out (`finally`), bot.py does not.
   */
  function JobTurn(v: Variant, job: Job, o: JobOutcome): (t: Turn)
    ensures t.survives ==> t.taskDone
    ensures t.taskDone <==> o.replyOk && (v.Current? || t.survives)
  {
    if !o.replyOk then Turn([ReplyProcessing], false, false)
    else
      var a := TryBlock(job.text, o);
      var handled := [ReplyProcessing] + a.calls
                     + (if a.failure.Some? then [EditFailure(a.failure.value)] else []);
      var escaped := a.failure.Some? && !o.failureEditOk;
      if v.Legacy? && escaped then Turn(handled, false, false)
      else Turn(handled, true, !escaped)
  }

  /** The trace of one turn: `get`, the calls, and `task_done` when it was reached. */
  function TurnActions(job: Job, t: Turn): seq<Action>
  {
    [Dequeued(job), Handled(t.calls)] + (if t.taskDone then [TaskDone(job)] else [])
  }

  /** What a run of the worker over the queued jobs did. */
  datatype Run = Run(actions: seq<Action>, consumed: nat, alive: bool)

  /** The turn each queued job gets, the i-th job meeting `outcomes[i]`. */
  function Turns(v: Variant, jobs: seq<Job>, outcomes: seq<JobOutcome>): (ts: seq<Turn>)
    requires |jobs| <= |outcomes|
    ensures |ts| == |jobs|
  {
    if jobs == [] then [] else [JobTurn(v, jobs[0], outcomes[0])] + Turns(v, jobs[1..], outcomes[1..])
  }

  lemma {:induction false} TurnsAt(v: Variant, jobs: seq<Job>, outcomes: seq<JobOutcome>, i: nat)
    requires i < |jobs| <= |outcomes|
    ensures Turns(v, jobs, outcomes)[i] == JobTurn(v, jobs[i], outcomes[i])
    decreases i
  {
    if i > 0 {
      TurnsAt(v, jobs[1..], outcomes[1..], i - 1);
    }
  }

  /**
   * The worker loop from the k-th queued job on, the i-th job taking turn
   * `turns[i]`, until the queue is empty (where `get` would wait) or a turn
   * ends the worker.
   */
  function DrainFrom(jobs: seq<Job>, turns: seq<Turn>, k: nat): (r: Run)
    requires k <= |jobs| <= |turns|
    ensures k + r.consumed <= |jobs|
    ensures r.alive ==> k + r.consumed == |jobs|
    ensures !r.alive ==> r.consumed > 0 && !turns[k + r.consumed - 1].survives
    decreases |jobs| - k
  {
    if k == |jobs| then Run([], 0, true)
    else
      var acts := TurnActions(jobs[k], turns[k]);
      if !turns[k].survives then Run(acts, 1, false)
      else
        var rest := DrainFrom(jobs, turns, k + 1);
        Run(acts + rest.actions, 1 + rest.consumed, rest.alive)
  }

  /** The jobs taken off the queue, in the order the trace shows them. */
  function Dequeues(actions: seq<Action>): seq<Job>
  {
    if actions == [] then []
    else (if actions[0].Dequeued? then [actions[0].job] else []) + Dequeues(actions[1..])
  }

  /** The jobs `task_done` was called for, in order. */
  function TaskDones(actions: seq<Action>): seq<Job>
  {
    if actions == [] then []
    else (if actions[0].TaskDone? then [actions[0].job] else []) + TaskDones(actions[1..])
  }

  lemma {:induction false} DequeuesAppend(a: seq<Action>, b: seq<Action>)
    ensures Dequeues(a + b) == Dequeues(a) + Dequeues(b)
    decreases |a|
  {
    if a == [] {
      assert a + b == b;
    } else {
      var c := a + b;
      assert c[0] == a[0] && c[1..] == a[1..] + b;
      DequeuesAppend(a[1..], b);
    }
  }

  lemma {:induction false} TaskDonesAppend(a: seq<Action>, b: seq<Action>)
    ensures TaskDones(a + b) == TaskDones(a) + TaskDones(b)
    decreases |a|
  {
    if a == [] {
      assert a + b == b;
    } else {
      var c := a + b;
      assert c[0] == a[0] && c[1..] == a[1..] + b;
      TaskDonesAppend(a[1..], b);
    }
  }

  /** One turn shows exactly one `get`, of its own job. */
  lemma TurnDequeues(job: Job, t: Turn)
    ensures Dequeues(TurnActions(job, t)) == [job]
  {
    var head, tail := [Dequeued(job), Handled(t.calls)], if t.taskDone then [TaskDone(job)] else [];
    assert head[1..][1..] == [];
    assert tail != [] ==> tail[1..] == [];
    DequeuesAppend(head, tail);
  }

  /** One turn shows one `task_done`, for its own job, when it reached it, and none otherwise. */
  lemma TurnTaskDones(job: Job, t: Turn)
    ensures TaskDones(TurnActions(job, t)) == if t.taskDone then [job] else []
  {
    var head, tail := [Dequeued(job), Handled(t.calls)], if t.taskDone then [TaskDone(job)] else [];
    assert head[1..][1..] == [];
    assert tail != [] ==> tail[1..] == [];
    TaskDonesAppend(head, tail);
  }

  lemma SliceCons<T>(s: seq<T>, i: nat, j: nat)
    requires i < j <= |s|
    ensures s[i..j] == [s[i]] + s[i + 1..j]
  {
  }

  /** FIFO: the worker takes the queued jobs in the order they were queued, one per turn. */
  lemma {:induction false} DequeuesInOrder(jobs: seq<Job>, turns: seq<Turn>, k: nat)
    requires k <= |jobs| <= |turns|
    ensures var r := DrainFrom(jobs, turns, k);
      Dequeues(r.actions) == jobs[k..k + r.consumed]
    decreases |jobs| - k
  {
    if k < |jobs| {
      var acts := TurnActions(jobs[k], turns[k]);
      TurnDequeues(jobs[k], turns[k]);
      if turns[k].survives {
        var rest := DrainFrom(jobs, turns, k + 1);
        DequeuesInOrder(jobs, turns, k + 1);
        DequeuesAppend(acts, rest.actions);
        SliceCons(jobs, k, k + 1 + rest.consumed);
      } else {
        assert jobs[k..k + 1] == [jobs[k]];
      }
    }
  }

  /** A worker that goes on has marked every job it took done, in queue order. */
  lemma {:induction false} TaskDonesWhenAlive(jobs: seq<Job>, turns: seq<Turn>, k: nat)
    requires k <= |jobs| <= |turns|
    requires forall i :: 0 <= i < |turns| ==> turns[i].survives ==> turns[i].taskDone
    ensures DrainFrom(jobs, turns, k).alive ==> TaskDones(DrainFrom(jobs, turns, k).actions) == jobs[k..]
    decreases |jobs| - k
  {
    if k < |jobs| && turns[k].survives {
      var acts := TurnActions(jobs[k], turns[k]);
      var rest := DrainFrom(jobs, turns, k + 1);
      assert turns[k].taskDone;
      TurnTaskDones(jobs[k], turns[k]);
      TaskDonesWhenAlive(jobs, turns, k + 1);
      TaskDonesAppend(acts, rest.actions);
      assert jobs[k..] == [jobs[k]] + jobs[k + 1..];
    }
  }

  /**
   * A worker that ends has marked done, in queue order, every job before the
   * one it ended on, and that one only if its turn reached `task_done`.
   */
  lemma {:induction false} TaskDonesWhenEnded(jobs: seq<Job>, turns: seq<Turn>, k: nat)
    requires k <= |jobs| <= |turns|
    requires forall i :: 0 <= i < |turns| ==> turns[i].survives ==> turns[i].taskDone
    ensures var r := DrainFrom(jobs, turns, k);
      !r.alive ==>
        var last := k + r.consumed - 1;
        TaskDones(r.actions) == jobs[k..last] + (if turns[last].taskDone then [jobs[last]] else [])
    decreases |jobs| - k
  {
    if k < |jobs| {
      var acts := TurnActions(jobs[k], turns[k]);
      TurnTaskDones(jobs[k], turns[k]);
      if turns[k].survives {
        var rest := DrainFrom(jobs, turns, k + 1);
        assert turns[k].taskDone;
        TaskDonesWhenEnded(jobs, turns, k + 1);
        TaskDonesAppend(acts, rest.actions);
        if !rest.alive {
          var last := k + 1 + rest.consumed - 1;
          assert jobs[k..last] == [jobs[k]] + jobs[k + 1..last];
        }
      } else {
        assert jobs[k..k] == [];
      }
    }
  }

  /** Every turn that lets the worker go on has reached `task_done`. */
  lemma TurnsGoOnOnlyWhenDone(v: Variant, jobs: seq<Job>, outcomes: seq<JobOutcome>)
    requires |jobs| <= |outcomes|
    ensures var turns := Turns(v, jobs, outcomes);
      forall i :: 0 <= i < |turns| ==> turns[i].survives ==> turns[i].taskDone
  {
    forall i | 0 <= i < |jobs|
      ensures Turns(v, jobs, outcomes)[i].survives ==> Turns(v, jobs, outcomes)[i].taskDone
    {
      TurnsAt(v, jobs, outcomes, i);
    }
  }

  /**
   * The worker over a queue: it takes the jobs in queue order and marks each
   * one done, in order, except the job it ends on, which is marked done in
   * bot/bot.py unless its "Processing" reply failed and never in bot.py.
   */
  lemma WorkerInOrder(v: Variant, jobs: seq<Job>, outcomes: seq<JobOutcome>)
    requires |jobs| <= |outcomes|
    ensures var r := DrainFrom(jobs, Turns(v, jobs, outcomes), 0);
      && Dequeues(r.actions) == jobs[..r.consumed]
      && (r.alive ==> r.consumed == |jobs| && TaskDones(r.actions) == jobs)
      && (!r.alive ==>
            var last := r.consumed - 1;
            TaskDones(r.actions) == jobs[..last]
              + (if v.Current? && outcomes[last].replyOk then [jobs[last]] else []))
  {
    var turns := Turns(v, jobs, outcomes);
    var r := DrainFrom(jobs, turns, 0);
    TurnsGoOnOnlyWhenDone(v, jobs, outcomes);
    if !r.alive {
      TurnsAt(v, jobs, outcomes, r.consumed - 1);
    }
    DequeuesInOrder(jobs, turns, 0);
    TaskDonesWhenAlive(jobs, turns, 0);
    TaskDonesWhenEnded(jobs, turns, 0);
    assert jobs[0..] == jobs;
  }

  /** The calls of a job that goes through: POST, progress edit, fetch, send, unlink, delete. */
  function SuccessCalls(url: string, size: Json, name: string): seq<Call>
  {
    [RequestDownload(url), EditProgress(size), FetchFile(name), SendDocument(name), UnlinkLocal(name), DeleteStatus]
  }

  /**
   * Against an answer that carries a string "filename" and a "size_mb", the
   * try block makes a prefix of the success calls, in that order; it makes
   * all of them when nothing raised, and otherwise only when the final
   * status deletion is what raised.
   */
  lemma TryIsPrefix(url: string, o: JobOutcome, name: string, size: Json)
    requires o.answer.Some? && o.answer.value.status == 200
    requires "filename" in o.answer.value.body && o.answer.value.body["filename"] == Str(name)
    requires "size_mb" in o.answer.value.body && o.answer.value.body["size_mb"] == size
    ensures var a := TryBlock(url, o);
      && |a.calls| > 0 && a.calls <= SuccessCalls(url, size, name)
      && (a.failure.None? ==> a.calls == SuccessCalls(url, size, name))
      && (a.calls == SuccessCalls(url, size, name) ==> a.failure.None? || a.failure == Some(DeleteFailed))
    ensures var a := TryBlock(url, o);
      |a.calls| == (if !o.progressEditOk then 2 else if !o.fetchOk then 3 else if !o.sendOk then 4
                    else if !o.unlinkOk then 5 else 6)
    ensures var a := TryBlock(url, o);
      a.failure == (if !o.progressEditOk then Some(ProgressEditFailed) else if !o.fetchOk then Some(FetchFailed)
                    else if !o.sendOk then Some(SendFailed) else if !o.unlinkOk then Some(UnlinkFailed)
                    else if !o.deleteOk then Some(DeleteFailed) else None)
    ensures TryBlock(url, o).failure.None? <==> o.progressEditOk && o.fetchOk && o.sendOk && o.unlinkOk && o.deleteOk
  {
    var full := SuccessCalls(url, size, name);
    assert full[..1] == [RequestDownload(url)];
    assert full[..2] == [RequestDownload(url), EditProgress(size)];
    assert full[..3] == [RequestDownload(url), EditProgress(size), FetchFile(name)];
    assert full[..4] == [RequestDownload(url), EditProgress(size), FetchFile(name), SendDocument(name)];
    assert full[..5] == [RequestDownload(url), EditProgress(size), FetchFile(name), SendDocument(name), UnlinkLocal(name)];
  }

  /**
   * Without a 200 answer carrying both "filename" and "size_mb" the try block
   * stops right after the POST, and what it raised says why.
   */
  lemma TryStopsAtAnswer(url: string, o: JobOutcome)
    requires o.answer.None? || o.answer.value.status != 200
      || "filename" !in o.answer.value.body || "size_mb" !in o.answer.value.body
    ensures TryBlock(url, o).calls == [RequestDownload(url)]
    ensures TryBlock(url, o).failure ==
      if o.answer.None? then Some(Unreachable)
      else if o.answer.value.status != 200 then Some(Refused(o.answer.value.status, o.answer.value.body))
      else if "filename" !in o.answer.value.body then Some(MissingKey("filename"))
      else Some(MissingKey("size_mb"))
  {
  }

  /**
   * A 200 answer whose "filename" is not a string: the progress edit is made,
   * and the try block stops before fetching, whether the edit or the name raised.
   */
  lemma TryStopsAtBadName(url: string, o: JobOutcome, size: Json)
    requires o.answer.Some? && o.answer.value.status == 200
    requires "filename" in o.answer.value.body && !o.answer.value.body["filename"].Str?
    requires "size_mb" in o.answer.value.body && o.answer.value.body["size_mb"] == size
    ensures TryBlock(url, o).calls == [RequestDownload(url), EditProgress(size)]
    ensures TryBlock(url, o).failure == if o.progressEditOk then Some(NotAName) else Some(ProgressEditFailed)
  {
  }

  /**
   * A "Processing" reply that raises is outside the try: nothing else is
   * called, no error edit is made, `task_done` is not reached and the worker ends.
   */
  lemma ReplyFailedEndsWorker(v: Variant, job: Job, o: JobOutcome)
    requires !o.replyOk
    ensures JobTurn(v, job, o) == Turn([ReplyProcessing], false, false)
  {
  }

  /**
   * A try block that raised nothing, whatever the 200 body held besides the
   * two keys, reaches `task_done` and lets the worker go on, in both versions.
   */
  lemma CleanTryGoesOn(v: Variant, job: Job, o: JobOutcome)
    requires o.replyOk && TryBlock(job.text, o).failure.None?
    ensures JobTurn(v, job, o) == Turn([ReplyProcessing] + TryBlock(job.text, o).calls, true, true)
  {
  }

  /** When every call returns, the job runs the whole success path and reaches `task_done`. */
  lemma SuccessPath(v: Variant, job: Job, o: JobOutcome, name: string, size: Json)
    requires o.replyOk && o.answer == Some(Response(200, map["filename" := Str(name), "size_mb" := size]))
    requires o.progressEditOk && o.fetchOk && o.sendOk && o.unlinkOk && o.deleteOk
    ensures JobTurn(v, job, o) == Turn([ReplyProcessing] + SuccessCalls(job.text, size, name), true, true)
  {
    TryIsPrefix(job.text, o, name, size);
  }

  /**
   * When a step of the try block raises, the handler adds the error edit and
   * nothing else: the status message is deleted only when that deletion is
   * what raised, and the worker goes on exactly when the error edit returns.
   */
  lemma FailurePath(v: Variant, job: Job, o: JobOutcome)
    requires o.replyOk && TryBlock(job.text, o).failure.Some?
    ensures var a := TryBlock(job.text, o);
      var t := JobTurn(v, job, o);
      && t.calls == [ReplyProcessing] + a.calls + [EditFailure(a.failure.value)]
      && (DeleteStatus in t.calls ==> a.failure == Some(DeleteFailed))
      && (t.survives <==> o.failureEditOk)
  {
  }

  /** The local copy is unlinked only right after the document was sent, and only when sending returned. */
  lemma UnlinkAfterSend(url: string, o: JobOutcome, k: int)
    requires 0 <= k < |TryBlock(url, o).calls| && TryBlock(url, o).calls[k].UnlinkLocal?
    ensures var calls := TryBlock(url, o).calls;
      k > 0 && calls[k - 1] == SendDocument(calls[k].name) && o.sendOk
  {
  }

  /** The class-level state of the bot process: `data/users.json`, `download_queue` and the worker task. */
  class Bot {
    const admin: int
    const variant: Variant
    /** The content of `data/users.json`, which `load_db` rereads on every command. */
    var db: Db
    /** The items waiting in `download_queue`, head first. */
    var queue: seq<Job>
    /** `download_queue`'s count of items put and not yet marked done. */
    var unfinished: nat
    /** The calls the worker has made so far. */
    var trace: seq<Action>
    /** Whether the worker task is still running; an exception that leaves its loop ends it. */
    var workerAlive: bool

    /** Every item still in the queue counts as unfinished. */
    ghost predicate Valid()
      reads this
    {
      |queue| <= unfinished
    }

    constructor (admin: int, variant: Variant, stored: Option<Db>)
      ensures Valid()
      ensures this.admin == admin && this.variant == variant && db == LoadDb(stored)
      ensures queue == [] && unfinished == 0 && trace == [] && workerAlive
    {
      this.admin := admin;
      this.variant := variant;
      db := LoadDb(stored);
      queue := [];
      unfinished := 0;
      trace := [];
      workerAlive := true;
    }

    /** /grantaccess: admin only; `context.args[0]` raises when no argument is given. */
    method GrantAccess(sender: int, args: seq<string>) returns (granted: bool)
      modifies this`db
      ensures granted <==> IsAdmin(sender, admin) && |args| > 0
      ensures db == if granted then Grant(old(db), args[0]) else old(db)
    {
      if sender != admin {
        return false;
      }
      if |args| == 0 {
        return false;
      }
      db := Grant(db, args[0]);
      granted := true;
    }

    /** handle_message: queue the text when it names a known domain and the sender may download. */
    method HandleMessage(sender: int, update: nat, text: Option<string>) returns (queued: bool)
      requires Valid()
      modifies this`queue, this`unfinished
      ensures Valid()
      ensures queued <==> Admits(sender, admin, db, MessageText(text))
      ensures queued ==> queue == old(queue) + [Job(update, MessageText(text))] && unfinished == old(unfinished) + 1
      ensures !queued ==> queue == old(queue) && unfinished == old(unfinished)
    {
      var t := MessageText(text);
      if !MentionsAny(t, TeraboxDomains) {
        return false;
      }
      if !(sender == admin || IsAuthorized(sender, db)) {
        return false;
      }
      queue := queue + [Job(update, t)];
      unfinished := unfinished + 1;
      queued := true;
    }

    /** One iteration of the worker loop: `get`, then the job's calls, then `task_done` when it is reached. */
    method Process(o: JobOutcome)
      requires Valid() && workerAlive && queue != []
      modifies this`queue, this`trace, this`unfinished, this`workerAlive
      ensures Valid() && queue == old(queue)[1..]
      ensures var t := JobTurn(variant, old(queue)[0], o);
        && trace == old(trace) + TurnActions(old(queue)[0], t)
        && workerAlive == t.survives
        && unfinished == old(unfinished) - (if t.taskDone then 1 else 0)
    {
      var job := queue[0];
      queue := queue[1..];
      var calls := [ReplyProcessing];
      var reachedDone := false;
      if o.replyOk {
        var a := TryBlock(job.text, o);
        calls := calls + a.calls;
        var escaped := false;
        if a.failure.Some? {
          calls := calls + [EditFailure(a.failure.value)];
          escaped := !o.failureEditOk;
        } else {
          assert calls + [] == calls;
        }
        reachedDone := variant.Current? || !escaped;
        workerAlive := !escaped;
      } else {
        workerAlive := false;
      }
      assert Turn(calls, reachedDone, workerAlive) == JobTurn(variant, job, o);
      trace := trace + TurnActions(job, Turn(calls, reachedDone, workerAlive));
      if reachedDone {
        unfinished := unfinished - 1;
      }
    }

    /**
     * The worker loop's invariant after `k` turns over `jobs`: the trace so
     * far is `done`, the rest of the queue is waiting, one `task_done` per
     * entry of `done` has been counted, and `done` followed by the run from
     * job `k` on is the whole run.
     */
    ghost predicate Drained(jobs: seq<Job>, turns: seq<Turn>, trace0: seq<Action>, unfinished0: int,
                            done: seq<Action>, k: nat)
      reads this
    {
      && Valid() && k <= |jobs| <= |turns| && queue == jobs[k..]
      && trace == trace0 + done
      && unfinished == unfinished0 - |TaskDones(done)|
      && (workerAlive ==> DrainFrom(jobs, turns, 0) == Then(done, k, DrainFrom(jobs, turns, k)))
      && (!workerAlive ==> DrainFrom(jobs, turns, 0) == Run(done, k, false))
    }

    /** One pass of the worker loop, with the bookkeeping that keeps `Drained`. */
    method Step(outcomes: seq<JobOutcome>, ghost jobs: seq<Job>, ghost trace0: seq<Action>, ghost unfinished0: int,
                ghost done: seq<Action>, k: nat) returns (ghost next: seq<Action>)
      requires |jobs| <= |outcomes|
      requires Drained(jobs, Turns(variant, jobs, outcomes), trace0, unfinished0, done, k)
      requires queue != [] && workerAlive
      modifies this`queue, this`unfinished, this`trace, this`workerAlive
      ensures Drained(jobs, Turns(variant, jobs, outcomes), trace0, unfinished0, next, k + 1)
      ensures |queue| < old(|queue|)
    {
      ghost var turns := Turns(variant, jobs, outcomes);
      assert queue[0] == jobs[k];
      TurnsAt(variant, jobs, outcomes, k);
      Advance(jobs, turns, done, k);
      Process(outcomes[k]);
      next := done + TurnActions(jobs[k], turns[k]);
      assert queue == jobs[k + 1..];
    }

    /**
     * The worker: dequeue, process, repeat, until the queue is empty (where
     * `get` waits for more) or an exception ends the worker task.
     */
    method RunWorker(outcomes: seq<JobOutcome>)
      requires Valid() && |outcomes| >= |queue|
      modifies this`queue, this`unfinished, this`trace, this`workerAlive
      ensures Valid()
      ensures !old(workerAlive) ==> queue == old(queue) && unfinished == old(unfinished) && trace == old(trace) && !workerAlive
      ensures old(workerAlive) ==>
        var r := DrainFrom(old(queue), Turns(variant, old(queue), outcomes), 0);
        && trace == old(trace) + r.actions
        && queue == old(queue)[r.consumed..]
        && workerAlive == r.alive
        && unfinished == old(unfinished) - |TaskDones(r.actions)|
    {
      if !workerAlive {
        return;
      }
      ghost var jobs := queue;
      ghost var done: seq<Action> := [];
      assert done + [] == done && trace + done == trace && jobs[0..] == jobs;
      var k := 0;
      while queue != [] && workerAlive
        invariant Drained(jobs, Turns(variant, jobs, outcomes), old(trace), old(unfinished), done, k)
        decreases |queue|
      {
        done := Step(outcomes, jobs, old(trace), old(unfinished), done, k);
        k := k + 1;
      }
      if workerAlive {
        assert DrainFrom(jobs, Turns(variant, jobs, outcomes), k) == Run([], 0, true);
        assert done + [] == done;
      }
    }
  }

  /** `done` followed by the run `r` from position `k`. */
  function Then(done: seq<Action>, k: nat, r: Run): Run
  {
    Run(done + r.actions, k + r.consumed, r.alive)
  }

  /** One turn of the loop moves the split point of the run one job on and adds its `task_done`, if any. */
  lemma Advance(jobs: seq<Job>, turns: seq<Turn>, done: seq<Action>, k: nat)
    requires k < |jobs| <= |turns|
    requires DrainFrom(jobs, turns, 0) == Then(done, k, DrainFrom(jobs, turns, k))
    ensures var next := done + TurnActions(jobs[k], turns[k]);
      && |TaskDones(next)| == |TaskDones(done)| + (if turns[k].taskDone then 1 else 0)
      && (turns[k].survives ==> DrainFrom(jobs, turns, 0) == Then(next, k + 1, DrainFrom(jobs, turns, k + 1)))
      && (!turns[k].survives ==> DrainFrom(jobs, turns, 0) == Run(next, k + 1, false))
  {
    var acts := TurnActions(jobs[k], turns[k]);
    TurnTaskDones(jobs[k], turns[k]);
    TaskDonesAppend(done, acts);
    if turns[k].survives {
      var rest := DrainFrom(jobs, turns, k + 1);
      assert done + (acts + rest.actions) == (done + acts) + rest.actions;
    }
  }

  /**
   * backend.py answers a successful download with the key "file"; the worker
   * reads "filename", so against that backend every job fails right after the
   * POST (with a KeyError when the answer was 200) and no document is ever sent.
   */
  lemma PoolReplyAlwaysFails(v: Variant, job: Job, o: JobOutcome, cookie: Option<string>, exitCode: int,
                             listing: seq<FileEntry>)
    requires o.replyOk && o.answer == Some(CookiePool.Decide(cookie, exitCode, listing))
    ensures var a := TryBlock(job.text, o);
      && a.failure.Some? && a.calls == [RequestDownload(job.text)]
      && (o.answer.value.status == 200 ==> a.failure == Some(MissingKey("filename")))
      && JobTurn(v, job, o).calls == [ReplyProcessing, RequestDownload(job.text), EditFailure(a.failure.value)]
  {
    var body := o.answer.value.body;
    assert o.answer.value.status == 200 ==> "filename" !in body.Keys;
  }

  /**
   * Against backend/backend.py, which answers under "filename", a job whose
   * calls all return goes through the whole success path.
   */
  lemma BackendReplyDelivers(v: Variant, job: Job, o: JobOutcome, existing: set<string>, exitCode: int,
                             listing: seq<FileEntry>)
    requires o.replyOk && o.progressEditOk && o.fetchOk && o.sendOk && o.unlinkOk && o.deleteOk
    requires o.answer == Some(Backend.Download(job.text, existing, exitCode, listing))
    requires o.answer.value.status == 200
    ensures var body := o.answer.value.body;
      && body["filename"].Str?
      && JobTurn(v, job, o)
         == Turn([ReplyProcessing] + SuccessCalls(job.text, body["size_mb"], body["filename"].text), true, true)
  {
    var body := o.answer.value.body;
    TryIsPrefix(job.text, o, body["filename"].text, body["size_mb"]);
  }
}

=== FILE: cookie_pool.dfy ===
/**
 * The single-pool backend (backend.py): every request takes a cookie from one
 * shared pool, shuffled before each scan, under a 90-second reuse cooldown,
 * then runs the download tool and answers with the newest file.
 */
module CookiePool {
  import opened Optional
  import opened Http

  /** Seconds a cookie rests after being handed out. */
  const Cooldown := 90

  /** `COOKIE_COOLDOWN.get(name, 0)`: a cookie never handed out counts as used at time 0. */
  function LastUsed(cooldown: map<string, int>, name: string): int
  {
    if name in cooldown then cooldown[name] else 0
  }

  /** The cooldown test of the scan, with its strict comparison. */
  predicate Ready(cooldown: map<string, int>, name: string, now: int)
  {
    now - LastUsed(cooldown, name) > Cooldown
  }

  /**
   * Where the scan of `get_cookie` stops: the first position of `order` whose
   * cookie is ready, or `|order|` when none is.
   */
  function FirstReady(order: seq<string>, cooldown: map<string, int>, now: int): (i: nat)
    ensures i <= |order|
    ensures forall k :: 0 <= k < i ==> !Ready(cooldown, order[k], now)
    ensures i < |order| ==> Ready(cooldown, order[i], now)
    decreases |order|
  {
    if order == [] then 0
    else if Ready(cooldown, order[0], now) then 0
    else 1 + FirstReady(order[1..], cooldown, now)
  }

  /** The two-element exchange `x[i], x[j] = x[j], x[i]`. */
  function Swap(s: seq<string>, i: nat, j: nat): (t: seq<string>)
    requires i < |s| && j < |s|
  {
    s[i := s[j]][j := s[i]]
  }

  /**
   * `random.shuffle`: for `i` from `top` down to 1 it exchanges `x[i]` with
   * `x[draws[i]]`, where `draws[i]` is what `randbelow(i + 1)` returned.
   */
  function Shuffled(s: seq<string>, draws: seq<nat>, top: int): seq<string>
    requires top < |s| <= |draws|
    requires forall i :: 0 < i < |draws| ==> draws[i] <= i
    decreases top
  {
    if top < 1 then s else Shuffled(Swap(s, top, draws[top]), draws, top - 1)
  }

  lemma SwapPermutes(s: seq<string>, i: nat, j: nat)
    requires i < |s| && j < |s|
    ensures |Swap(s, i, j)| == |s| && multiset(Swap(s, i, j)) == multiset(s)
  {
  }

  /** Shuffling only reorders: the pool keeps exactly the same cookies. */
  lemma {:induction false} ShuffledPermutes(s: seq<string>, draws: seq<nat>, top: int)
    requires top < |s| <= |draws|
    requires forall i :: 0 < i < |draws| ==> draws[i] <= i
    ensures |Shuffled(s, draws, top)| == |s|
    ensures multiset(Shuffled(s, draws, top)) == multiset(s)
    decreases top
  {
    if top >= 1 {
      SwapPermutes(s, top, draws[top]);
      ShuffledPermutes(Swap(s, top, draws[top]), draws, top - 1);
    }
  }

  /**
   * The status-code chain of `download` once `get_cookie` has answered:
   * no cookie gives 429 before the tool runs, a nonzero exit 500, an empty
   * download directory 404, and otherwise the newest file under the key "file".
   */
  function Decide(cookie: Option<string>, exitCode: int, listing: seq<FileEntry>): (r: Response)
    ensures r.status == 429 <==> cookie.None?
    ensures r.status == 500 <==> cookie.Some? && exitCode != 0
    ensures r.status == 404 <==> cookie.Some? && exitCode == 0 && |listing| == 0
    ensures r.status == 200 <==> cookie.Some? && exitCode == 0 && |listing| > 0
    ensures r.status != 200 ==> r.body.Keys == {"detail"}
    ensures r.status == 200 ==>
      && r.body.Keys == {"file", "size_mb"}
      && exists i :: 0 <= i < |listing| && r.body["file"] == Str(listing[i].name)
                     && r.body["size_mb"] == SizeMb(listing[i].size)
                     && forall j :: 0 <= j < |listing| ==> listing[j].mtime <= listing[i].mtime
  {
    if cookie.None? then Error(429, "All cookies cooling down")
    else if exitCode != 0 then Error(500, "Download failed")
    else if |listing| == 0 then Error(404, "No file produced")
    else
      var f := listing[Newest(listing)];
      Response(200, map["file" := Str(f.name), "size_mb" := SizeMb(f.size)])
  }

  /** Without a cookie the answer is 429 whatever the tool or the directory would have done. */
  lemma NoCookieIgnoresTool(exit1: int, exit2: int, listing1: seq<FileEntry>, listing2: seq<FileEntry>)
    ensures Decide(None, exit1, listing1) == Decide(None, exit2, listing2)
    ensures Decide(None, exit1, listing1) == Error(429, "All cookies cooling down")
  {
  }

  /** A cookie stamped at `t` is not ready again at any `now` with `now - t <= 90`. */
  lemma StampedNotReady(cooldown: map<string, int>, name: string, t: int, now: int)
    requires now - t <= Cooldown
    ensures !Ready(cooldown[name := t], name, now)
  {
  }

  /** `COOKIE_POOL` and `COOKIE_COOLDOWN`, the module-level state of backend.py. */
  class Pool {
    var cookies: seq<string>
    var cooldown: map<string, int>

    /** `list(COOKIE_DIR.glob("*.txt"))` at start-up, with an empty cooldown map. */
    constructor (files: seq<string>)
      ensures cookies == files && cooldown == map[]
    {
      cookies := files;
      cooldown := map[];
    }

    /** `random.shuffle(COOKIE_POOL)`, with the random draws given. */
    method Shuffle(draws: seq<nat>)
      requires |draws| == |cookies|
      requires forall i :: 0 < i < |draws| ==> draws[i] <= i
      modifies this`cookies
      ensures cookies == Shuffled(old(cookies), draws, |old(cookies)| - 1)
      ensures multiset(cookies) == multiset(old(cookies)) && |cookies| == |old(cookies)|
    {
      var i := |cookies| - 1;
      while i >= 1
        invariant i < |cookies| == |draws|
        invariant Shuffled(cookies, draws, i) == Shuffled(old(cookies), draws, |old(cookies)| - 1)
        invariant multiset(cookies) == multiset(old(cookies))
        decreases i
      {
        var j := draws[i];
        SwapPermutes(cookies, i, j);
        cookies := cookies[i := cookies[j]][j := cookies[i]];
        i := i - 1;
      }
    }

    /**
     * `get_cookie()` at time `now`: shuffle, then hand out the first cookie
     * whose last use is more than 90 seconds ago and stamp it with `now`.
     */
    method GetCookie(now: int, draws: seq<nat>) returns (c: Option<string>)
      requires |draws| == |cookies|
      requires forall i :: 0 < i < |draws| ==> draws[i] <= i
      modifies this
      ensures cookies == Shuffled(old(cookies), draws, |old(cookies)| - 1)
      ensures multiset(cookies) == multiset(old(cookies))
      ensures var i := FirstReady(cookies, old(cooldown), now);
        c == if i < |cookies| then Some(cookies[i]) else None
      ensures c.Some? ==> c.value in cookies && Ready(old(cooldown), c.value, now)
      ensures c.Some? ==> cooldown == old(cooldown)[c.value := now]
      ensures c.None? ==> cooldown == old(cooldown)
      ensures c.None? <==> forall k :: 0 <= k < |cookies| ==> !Ready(old(cooldown), cookies[k], now)
    {
      Shuffle(draws);
      for i := 0 to |cookies|
        invariant cooldown == old(cooldown)
        invariant forall k :: 0 <= k < i ==> !Ready(cooldown, cookies[k], now)
      {
        var last := if cookies[i] in cooldown then cooldown[cookies[i]] else 0;
        if now - last > Cooldown {
          ghost var first := FirstReady(cookies, cooldown, now);
          assert first == i;
          cooldown := cooldown[cookies[i] := now];
          return Some(cookies[i]);
        }
      }
      c := None;
    }

    /**
     * POST /download: take a cookie, then let the tool's exit code and the
     * download directory decide the answer. The tool runs only with a cookie.
     */
    method Download(now: int, draws: seq<nat>, exitCode: int, listing: seq<FileEntry>)
      returns (r: Response)
      requires |draws| == |cookies|
      requires forall i :: 0 < i < |draws| ==> draws[i] <= i
      modifies this
      ensures cookies == Shuffled(old(cookies), draws, |old(cookies)| - 1)
      ensures multiset(cookies) == multiset(old(cookies))
      ensures var i := FirstReady(cookies, old(cooldown), now);
        r == Decide(if i < |cookies| then Some(cookies[i]) else None, exitCode, listing)
      ensures var i := FirstReady(cookies, old(cooldown), now);
        && (i < |cookies| ==> cooldown == old(cooldown)[cookies[i] := now])
        && (i == |cookies| ==> cooldown == old(cooldown))
      ensures r.status == 429 <==> FirstReady(cookies, old(cooldown), now) == |cookies|
    {
      var c := GetCookie(now, draws);
      r := Decide(c, exitCode, listing);
    }
  }

  /**
   * One cookie, four requests: at 1000 it is handed out; at 1030 and at 1090
   * (90 is not more than 90) the pool is exhausted; at 1095 it is handed out again.
   */
  method SingleCookieScenario(name: string) returns (at1000: Option<string>, at1030: Option<string>,
                                                     at1090: Option<string>, at1095: Option<string>)
    ensures at1000 == Some(name) && at1030 == None && at1090 == None && at1095 == Some(name)
  {
    var pool := new Pool([name]);
    at1000 := pool.GetCookie(1000, [0]);
    assert pool.cookies == [name] && pool.cooldown == map[name := 1000];
    at1030 := pool.GetCookie(1030, [0]);
    assert pool.cookies == [name] && pool.cooldown == map[name := 1000];
    at1090 := pool.GetCookie(1090, [0]);
    assert pool.cookies == [name] && pool.cooldown == map[name := 1000];
    at1095 := pool.GetCookie(1095, [0]);
  }
}

=== FILE: http.dfy ===
/**
 * What the two backends exchange with their callers over HTTP: JSON replies
 * with a status code, and the directory listing they pick the produced file from.
 */
module Http {

  /**
   * The JSON values the backends put in a reply. `SizeMb(bytes)` stands for
   * `round(bytes / (1024 * 1024), 2)`, a float this model does not compute.
   */
  datatype Json = Str(text: string) | SizeMb(bytes: nat)

  /** A JSON reply: the HTTP status and the top-level object. */
  datatype Response = Response(status: int, body: map<string, Json>)

  /** FastAPI's reply for `raise HTTPException(status, detail)`. */
  function Error(status: int, detail: string): Response
  {
    Response(status, map["detail" := Str(detail)])
  }

  /** One entry of the download directory: its name, modification time and size. */
  datatype FileEntry = FileEntry(name: string, mtime: int, size: nat)

  /**
   * The position of `sorted(files, key=os.path.getmtime, reverse=True)[0]`:
   * Python's sort is stable also when reversed, so this is the first entry of
   * the listing among those with the greatest modification time.
   */
  function Newest(files: seq<FileEntry>): (k: nat)
    requires |files| > 0
    ensures k < |files|
    ensures forall j :: 0 <= j < |files| ==> files[j].mtime <= files[k].mtime
    ensures forall j :: 0 <= j < k ==> files[j].mtime < files[k].mtime
    decreases |files|
  {
    if |files| == 1 then 0
    else
      var k := Newest(files[1..]) + 1;
      if files[0].mtime >= files[k].mtime then 0 else k
  }
}

=== FILE: optional.dfy ===
/** Python's `None`-or-value results. */
module Optional {
  datatype Option<+T> = None | Some(value: T)
}

=== FILE: text.dfy ===
/**
 * The handful of Python `str` operations the bot and the backends rely on:
 * the `in` substring test, `str.replace`, `str.strip` and `str(int)`.
 */
module Text {

  /** Python's `p in s` on strings: `p` occurs as a contiguous piece of `s`. */
  predicate Contains(s: string, p: string)
    decreases |s|
  {
    p <= s || (|s| > 0 && Contains(s[1..], p))
  }

  /** `p` occurs in `s` starting at index `i`. */
  predicate OccursAt(s: string, p: string, i: int)
  {
    0 <= i && i + |p| <= |s| && s[i..i + |p|] == p
  }

  lemma {:induction false} ContainsFromOccurrence(s: string, p: string, i: int)
    requires OccursAt(s, p, i)
    ensures Contains(s, p)
    decreases i
  {
    if i == 0 {
      assert p <= s;
    } else {
      assert s[1..][i - 1..i - 1 + |p|] == s[i..i + |p|];
      ContainsFromOccurrence(s[1..], p, i - 1);
    }
  }

  lemma {:induction false} OccurrenceFromContains(s: string, p: string) returns (i: int)
    requires Contains(s, p)
    ensures OccursAt(s, p, i)
    decreases |s|
  {
    if p <= s {
      i := 0;
    } else {
      var j := OccurrenceFromContains(s[1..], p);
      assert s[1..][j..j + |p|] == s[j + 1..j + 1 + |p|];
      i := j + 1;
    }
  }

  /** `Contains` agrees with the positional reading of Python's `in`. */
  lemma ContainsIff(s: string, p: string)
    ensures Contains(s, p) <==> exists i :: OccursAt(s, p, i)
  {
    if Contains(s, p) {
      var i := OccurrenceFromContains(s, p);
    }
    if exists i :: OccursAt(s, p, i) {
      var i :| OccursAt(s, p, i);
      ContainsFromOccurrence(s, p, i);
    }
  }

  /** A string contains every piece of any piece it contains. */
  lemma ContainsTransitive(s: string, q: string, p: string)
    requires Contains(s, q) && Contains(q, p)
    ensures Contains(s, p)
  {
    var i := OccurrenceFromContains(s, q);
    var j := OccurrenceFromContains(q, p);
    forall k | 0 <= k < |p| ensures s[i + j + k] == p[k] {
      assert p[k] == q[j..j + |p|][k] == q[j + k] == s[i..i + |q|][j + k];
    }
    assert s[i + j..i + j + |p|] == p;
    ContainsFromOccurrence(s, p, i + j);
  }

  // ---------------------------------------------------------------------------
  // str.replace

  /**
   * Python's `s.replace(pat, rep)`: scans left to right and replaces every
   * non-overlapping occurrence of `pat`; the replacement text is not rescanned.
   */
  function Replace(s: string, pat: string, rep: string): string
    requires |pat| > 0
    decreases |s|
  {
    if |s| == 0 then []
    else if pat <= s then rep + Replace(s[|pat|..], pat, rep)
    else [s[0]] + Replace(s[1..], pat, rep)
  }

  /** Replacing a piece that does not occur leaves the string as it is. */
  lemma {:induction false} ReplaceAbsent(s: string, pat: string, rep: string)
    requires |pat| > 0 && !Contains(s, pat)
    ensures Replace(s, pat, rep) == s
    decreases |s|
  {
    if |s| > 0 {
      ReplaceAbsent(s[1..], pat, rep);
    }
  }

  /** If `pat` occurs in `s`, the replacement text occurs in the result. */
  lemma {:induction false} ReplaceIntroduces(s: string, pat: string, rep: string)
    requires |pat| > 0 && Contains(s, pat)
    ensures Contains(Replace(s, pat, rep), rep)
    decreases |s|
  {
    if pat <= s {
      assert rep <= Replace(s, pat, rep);
    } else {
      ReplaceIntroduces(s[1..], pat, rep);
      var r := Replace(s[1..], pat, rep);
      var i := OccurrenceFromContains(r, rep);
      assert Replace(s, pat, rep) == [s[0]] + r;
      assert ([s[0]] + r)[i + 1..i + 1 + |rep|] == r[i..i + |rep|];
      ContainsFromOccurrence([s[0]] + r, rep, i + 1);
    }
  }

  /** No occurrence of `pat` in `s` starts before index `k` and ends after it. */
  predicate NoStraddle(s: string, pat: string, k: int)
  {
    forall j :: 0 <= j < k && k < j + |pat| ==> !OccursAt(s, pat, j)
  }

  lemma OccursShift(s: string, pat: string, k: int, j: int)
    requires 0 <= k <= |s| && 0 <= j
    ensures OccursAt(s[k..], pat, j) <==> OccursAt(s, pat, j + k)
  {
    if j + |pat| <= |s| - k {
      assert s[k..][j..j + |pat|] == s[j + k..j + k + |pat|];
    }
  }

  /** Cutting `pat` off the front of `c` keeps the straddle condition at `k`. */
  lemma NoStraddleShift(c: string, pat: string, d: int, k: int)
    requires 0 <= d <= k <= |c| && NoStraddle(c, pat, k)
    ensures NoStraddle(c[d..], pat, k - d)
  {
    forall j | 0 <= j < k - d && k - d < j + |pat|
      ensures !OccursAt(c[d..], pat, j)
    {
      OccursShift(c, pat, d, j);
    }
  }

  /** The scan of `Replace` can be cut at any index that no match straddles. */
  lemma {:induction false} ReplaceSplit(a: string, b: string, pat: string, rep: string)
    requires |pat| > 0 && NoStraddle(a + b, pat, |a|)
    ensures Replace(a + b, pat, rep) == Replace(a, pat, rep) + Replace(b, pat, rep)
    decreases |a|
  {
    var c := a + b;
    if |a| == 0 {
      assert c == b;
    } else if pat <= c {
      assert OccursAt(c, pat, 0);
      assert |pat| <= |a|;
      assert pat <= a by { assert a[..|pat|] == c[..|pat|]; }
      var a' := a[|pat|..];
      assert c[|pat|..] == a' + b;
      NoStraddleShift(c, pat, |pat|, |a|);
      ReplaceSplit(a', b, pat, rep);
      assert Replace(c, pat, rep) == rep + Replace(a' + b, pat, rep);
      assert Replace(a, pat, rep) == rep + Replace(a', pat, rep);
    } else {
      var a' := a[1..];
      assert c[1..] == a' + b;
      assert !(pat <= a) by {
        if |pat| <= |a| { assert a[..|pat|] == c[..|pat|]; }
      }
      NoStraddleShift(c, pat, 1, |a|);
      ReplaceSplit(a', b, pat, rep);
      assert Replace(c, pat, rep) == [c[0]] + Replace(a' + b, pat, rep);
      assert Replace(a, pat, rep) == [a[0]] + Replace(a', pat, rep);
    }
  }

  /**
   * A piece `p` survives a replacement of `pat` when no occurrence of `pat`
   * can overlap it: `pat` does not begin inside `p` past its first character,
   * `p` does not begin inside `pat` past its first character, and the two
   * differ within their common length.
   */
  predicate Disjoint(pat: string, p: string)
  {
    && |pat| > 0 && |p| > 0
    && pat[0] !in p[1..]
    && p[0] !in pat[1..]
    && exists d :: 0 <= d < |pat| && d < |p| && pat[d] != p[d]
  }

  /** Under `Disjoint`, no occurrence of `pat` overlaps an occurrence of `p`. */
  lemma DisjointNoOverlap(s: string, p: string, pat: string, i: int, j: int)
    requires Disjoint(pat, p) && OccursAt(s, p, i)
    requires 0 <= j && i < j + |pat| && j < i + |p|
    ensures !OccursAt(s, pat, j)
  {
    if j + |pat| <= |s| {
      assert s[i..i + |p|] == p;
      if j > i {
        // the first character of `pat` would have to occur in `p[1..]`
        assert s[j] == s[i..i + |p|][j - i] == p[1..][j - i - 1];
        assert s[j..j + |pat|][0] != pat[0];
      } else if j < i {
        // the first character of `p` would have to occur in `pat[1..]`
        assert s[j..j + |pat|][i - j] == s[i] == p[0];
        assert p[0] != pat[1..][i - j - 1];
      } else {
        var d :| 0 <= d < |pat| && d < |p| && pat[d] != p[d];
        assert s[j..j + |pat|][d] == s[i + d] == p[d];
      }
    }
  }

  /** Inside an occurrence of `p` at `i`, `pat` occurs at `j` of `p` exactly when it occurs at `i + j` of `s`. */
  lemma OccursInPiece(s: string, p: string, pat: string, i: int, j: int)
    requires OccursAt(s, p, i) && 0 <= j && j + |pat| <= |p|
    ensures OccursAt(p, pat, j) <==> OccursAt(s, pat, i + j)
  {
    var inP, inS := p[j..j + |pat|], s[i + j..i + j + |pat|];
    forall t | 0 <= t < |pat|
      ensures inP[t] == inS[t]
    {
      assert p[j + t] == s[i..i + |p|][j + t] == s[i + j + t];
    }
    assert inP == inS;
  }

  /** No occurrence of `pat` overlaps an occurrence of a string it is disjoint from. */
  lemma {:induction false} KeptUntouched(s: string, p: string, pat: string, i: int)
    requires Disjoint(pat, p) && OccursAt(s, p, i)
    ensures NoStraddle(s, pat, i)
    ensures NoStraddle(s[i..], pat, |p|)
    ensures !Contains(p, pat)
  {
    var py := s[i..];
    forall j | 0 <= j < i && i < j + |pat| ensures !OccursAt(s, pat, j) {
      DisjointNoOverlap(s, p, pat, i, j);
    }
    forall j | 0 <= j < |p| && |p| < j + |pat| ensures !OccursAt(py, pat, j) {
      OccursShift(s, pat, i, j);
      DisjointNoOverlap(s, p, pat, i, j + i);
    }
    forall j ensures !OccursAt(p, pat, j) {
      if 0 <= j && j + |pat| <= |p| {
        OccursInPiece(s, p, pat, i, j);
        DisjointNoOverlap(s, p, pat, i, j + i);
      }
    }
    ContainsIff(p, pat);
  }

  /** Replacing a pattern disjoint from `p` keeps an occurrence of `p`. */
  lemma {:induction false} ReplaceKeeps(s: string, p: string, pat: string, rep: string)
    requires Disjoint(pat, p) && Contains(s, p)
    ensures Contains(Replace(s, pat, rep), p)
  {
    var i := OccurrenceFromContains(s, p);
    var x, y := s[..i], s[i + |p|..];
    var py := s[i..];
    assert s == x + py && py == p + y;
    KeptUntouched(s, p, pat, i);
    ReplaceSplit(x, py, pat, rep);
    ReplaceSplit(p, y, pat, rep);
    ReplaceAbsent(p, pat, rep);
    var r := Replace(s, pat, rep);
    var k := |Replace(x, pat, rep)|;
    assert r == Replace(x, pat, rep) + p + Replace(y, pat, rep);
    assert r[k..k + |p|] == p;
    ContainsFromOccurrence(r, p, k);
  }

  // ---------------------------------------------------------------------------
  // str.strip

  /** Python's `str.isspace` for a single character. */
  predicate IsSpace(c: char)
  {
    || c == ' '
    || '\t' <= c <= '\r'
    || '\U{1C}' <= c <= '\U{1F}'
    || c == '\U{85}' || c == '\U{A0}' || c == '\U{1680}'
    || '\U{2000}' <= c <= '\U{200A}'
    || c == '\U{2028}' || c == '\U{2029}' || c == '\U{202F}' || c == '\U{205F}'
    || c == '\U{3000}'
  }

  function StripLeft(s: string): string
    decreases |s|
  {
    if |s| > 0 && IsSpace(s[0]) then StripLeft(s[1..]) else s
  }

  function StripRight(s: string): string
    decreases |s|
  {
    if |s| > 0 && IsSpace(s[|s| - 1]) then StripRight(s[..|s| - 1]) else s
  }

  /** Python's `s.strip()` with no argument. */
  function Strip(s: string): string
  {
    StripRight(StripLeft(s))
  }

  lemma {:induction false} StripLeftKeeps(s: string, p: string)
    requires Contains(s, p) && |p| > 0 && !IsSpace(p[0])
    ensures Contains(StripLeft(s), p)
    decreases |s|
  {
    if |s| > 0 && IsSpace(s[0]) {
      assert !(p <= s);
      StripLeftKeeps(s[1..], p);
    }
  }

  lemma {:induction false} StripRightKeeps(s: string, p: string)
    requires Contains(s, p) && |p| > 0 && !IsSpace(p[|p| - 1])
    ensures Contains(StripRight(s), p)
    decreases |s|
  {
    if |s| > 0 && IsSpace(s[|s| - 1]) {
      var i := OccurrenceFromContains(s, p);
      assert s[i..i + |p|][|p| - 1] == s[i + |p| - 1];
      assert i + |p| < |s|;
      assert s[..|s| - 1][i..i + |p|] == s[i..i + |p|];
      ContainsFromOccurrence(s[..|s| - 1], p, i);
      StripRightKeeps(s[..|s| - 1], p);
    }
  }

  /** Stripping keeps every piece that neither begins nor ends with whitespace. */
  lemma StripKeeps(s: string, p: string)
    requires Contains(s, p) && |p| > 0 && !IsSpace(p[0]) && !IsSpace(p[|p| - 1])
    ensures Contains(Strip(s), p)
  {
    StripLeftKeeps(s, p);
    StripRightKeeps(StripLeft(s), p);
  }

  /** A string with no whitespace at either end is its own `strip()`. */
  lemma StripTrimmed(s: string)
    requires |s| > 0 ==> !IsSpace(s[0]) && !IsSpace(s[|s| - 1])
    ensures Strip(s) == s
  {
  }

  // ---------------------------------------------------------------------------
  // str(int)

  function DigitChar(d: nat): char
    requires d < 10
  {
    "0123456789"[d]
  }

  /** Python's `str(n)` for a non-negative integer: decimal, no leading zeros. */
  function NatToString(n: nat): string
    decreases n
  {
    if n < 10 then [DigitChar(n)] else NatToString(n / 10) + [DigitChar(n % 10)]
  }

  /** Python's `str(n)` for any integer. */
  function IntToString(n: int): string
  {
    if n < 0 then "-" + NatToString(-n) else NatToString(n)
  }

  lemma {:induction false} NatToStringShape(n: nat)
    ensures |NatToString(n)| > 0 && NatToString(n)[0] != '-'
    ensures n >= 10 ==> |NatToString(n)| >= 2
    decreases n
  {
    if n >= 10 {
      NatToStringShape(n / 10);
    }
  }

  lemma {:induction false} NatToStringInjective(a: nat, b: nat)
    requires NatToString(a) == NatToString(b)
    ensures a == b
    decreases a
  {
    NatToStringShape(a);
    NatToStringShape(b);
    if a >= 10 && b >= 10 {
      var sa, sb := NatToString(a), NatToString(b);
      assert sa[|sa| - 1] == DigitChar(a % 10) && sb[|sb| - 1] == DigitChar(b % 10);
      assert sa[..|sa| - 1] == NatToString(a / 10);
      assert sb[..|sb| - 1] == NatToString(b / 10);
      NatToStringInjective(a / 10, b / 10);
    }
  }

  /** Distinct integers have distinct decimal renderings. */
  lemma IntToStringInjective(a: int, b: int)
    requires IntToString(a) == IntToString(b)
    ensures a == b
  {
    NatToStringShape(if a < 0 then -a else a);
    NatToStringShape(if b < 0 then -b else b);
    if a < 0 && b < 0 {
      assert IntToString(a)[1..] == NatToString(-a);
      assert IntToString(b)[1..] == NatToString(-b);
      NatToStringInjective(-a, -b);
    } else if a >= 0 && b >= 0 {
      NatToStringInjective(a, b);
    }
  }
}
